=== FILE: README.md ===
# Fruit-smash game engine in Dafny

This project models the game-state engine of the fruit-smash arcade game (`src/lib/GameService.ts`).
Fruits spawn over time and fall down the board. The player hits them until no click is left, which destroys them and scores their points.
A fruit that falls off the bottom is missed, and five misses end the game.
Levels 3 and 5 unlock medium and large fruit, and each difficulty step shortens the spawn interval.
Special fruits start one of two timed bonuses: every fruit falls slower, or every fruit needs only one hit.

The model is functional. An immutable `GameState` record holds a sequence of `Fruit` records, and every operation of the engine is a pure function from the old state to the new one.

- `base.dfy` (module `Base`): `Option`, removal at an index, and the subsequence relation.
- `fruits.dfy` (module `Fruits`): the `Fruit` class. This covers its random size and position draws, the fall-speed interpolation, `fall`, `smash`, and the apply/revert modifiers.
- `game_service.dfy` (module `Service`): the `GameService` class. This covers reset, the random draws for category, clicks, points and specials, spawning, the difficulty step, the fall-and-filter pass, the tick, bonus start and expiry, hits and `endGame`.
- `game_invariants.dfy` (module `Invariants`): the session invariant `Valid` and its preservation by every transition. `Valid` says that each live fruit's values lie in its category's ranges, each has at least one click left, active bonuses are reflected in every fruit, and identifiers are distinct.
- `game_properties.dfy` (module `Properties`): lemmas that relate several calls. They cover hits and scoring, bonus activation without stacking, each fruit getting back its own original values, the step order inside a tick, and properties of any sequence of driver events (`Event`, `Step`, `Run`).

How the impure parts are modelled:
- Every `Math.random()` draw is a `real` parameter `r` with `0.0 <= r < 1.0`. The source's `Math.floor(r * width + min)` formulas are kept.
- The draws of one spawn are bundled in `SpawnDraws`.
- `Date.now()` in `updateGame` is the parameter `now`.
- Fruit identifiers are naturals. The operations do not check them, just as the source does not; the invariant lemmas require the identifier of a spawn to be fresh.
- The repeating game timer is the flag `gameIntervalArmed`. `startGame` sets it, `endGame` clears it, and `IntervalTick` is one firing of the timer, which does nothing once the flag is cleared.
- Each bonus timeout body is its own transition: `ExpireFallSpeedModifier` and `ExpireOneClickModifier`.
- Fall speed, `y`, `spawnRate` and `nextSpawnTime` are exact reals. Sizes, x positions, clicks and points are integers, because the source floors them.

The model follows the code as written, including these behaviours:
- Starting the slow-down bonus scales live fruits by 0.8. A fruit spawned while the bonus is active is scaled by 0.7.
- `smashFruit` has no game-over guard (`Properties.SmashScoresAfterGameOver`).
- `initGame` keeps the game-over flag, the last difficulty-increase score and the bonus flags. So once the game is over it stays over, even across a restart (`Properties.GameOverIsPermanent`).
- When the one-click bonus expires, a fruit's click count goes back to its drawn value. Hits landed on that fruit before the bonus are lost.
- The constructor draws a horizontal position, and `spawnFruit` then draws it again. Both draws are parameters.
- `if (this._isGameOver)` at the end of `updateGame` tests a store object and has no effect, so it is not modelled.

Category tables and rules as the code has them:
- Large fruit need 5–6 clicks and award 60–150 points.
- A fruit is special with probability 0.1, and then carries either bonus with probability 1/2 each.
- Hits after game over still score.
- A restart keeps the game-over flag, the last difficulty-increase score and the bonus flags.

## Model

| member | source | states |
|---|---|---|
| `Fruits.NewFruit` | src/lib/GameService.ts:32-48 | The constructor draws a size in its category's range and an x position that keeps the fruit on the board. The fall speed is interpolated from the size. The original clicks and original fall speed equal the values the fruit starts with, and the fruit starts at y = 0, falling. |
| `Fruits.CalculateFallSpeed` | src/lib/GameService.ts:66-74 | The speed is 0.3 at size 100 and 1.3 at size 300, and stays within [0.3, 1.3] for every size in between. |
| `Fruits.FallSpeedMonotone` | src/lib/GameService.ts:66-74 | A larger fruit never falls slower. |
| `Fruits.FallSpeedLinear` | src/lib/GameService.ts:66-74 | The speed is linear in the size: a larger fruit falls strictly faster, and the speed difference is the size difference times the constant slope 1.0 / 200. |
| `Fruits.RandomXPosition` | src/lib/GameService.ts:76-79 | For any draw, a fruit narrower than the board gets 0 <= x and x + size < 800. |
| `Fruits.XReachable` | src/lib/GameService.ts:76-79 | Every x from 0 up to, but not including, 800 - size is produced by some draw, so no on-board position is excluded. |
| `Fruits.CalculateSize` | src/lib/GameService.ts:81-89 | For any draw, the size lies in the category's half-open range: [100,150), [170,220) or [230,300). |
| `Fruits.SizeReachable` | src/lib/GameService.ts:81-89 | Every size in the category's half-open range is produced by some draw. |
| `Fruits.Fall` | src/lib/GameService.ts:102-106 | A falling fruit moves down by exactly its current speed. Its identity, clicks and speed are unchanged. |
| `Fruits.Smash` | src/lib/GameService.ts:108-111 | A hit lowers `clicksRequired` by exactly one and reports "destroyed" iff the new value is <= 0. Nothing else about the fruit changes. |
| `Fruits.ApplyFallSpeedModifier` | src/lib/GameService.ts:50-52 | Only the current fall speed changes: it is scaled by the modifier. Identity, originals, clicks and height are kept. |
| `Fruits.ApplyOneClickModifier` | src/lib/GameService.ts:54-56 | Only the click count changes: it becomes 1. Identity, originals, speed and height are kept. |
| `Fruits.RevertToOriginalFallSpeed` | src/lib/GameService.ts:58-60 | The fall speed becomes the fruit's own original speed. Nothing else changes. |
| `Fruits.RevertToOriginalClicksRequired` | src/lib/GameService.ts:62-64 | The click count becomes the fruit's own original count. Nothing else changes. |
| `Fruits.RevertUndoesModifiers` | src/lib/GameService.ts:50-64 | Reverting after a modifier gives back the fruit's own original value. For an unmodified fruit, applying a modifier and then reverting it is the identity. |
| `Service.NewGameService` | src/lib/GameService.ts:118-138 | A new engine has no fruits, score 0, no misses, level 1, spawn interval 1200, spawn deadline 0, last difficulty-increase score 0 (so the first level-up comes at 500 points), no bonus running, the game not over and no timer. |
| `Service.InitGame` | src/lib/GameService.ts:161-170 | Reset clears fruits, misses, level, spawn interval, spawn deadline and score. It leaves the game-over flag, the last difficulty-increase score, the bonus flags and the timer as they were. |
| `Service.StartGame` | src/lib/GameService.ts:303-308 | Starting resets as `InitGame` does and installs the game timer. |
| `Service.EndGame` | src/lib/GameService.ts:365-372 | Ending sets the game-over flag and removes the timer. Nothing else changes. |
| `Service.AddScore` | src/lib/GameService.ts:172-174 | The score grows by exactly the given points. Nothing else changes. |
| `Service.CalculateFruitType` | src/lib/GameService.ts:183-197 | For any draw the category is unlocked by the level: only small below level 3, small or medium at levels 3–4, any category from level 5. |
| `Service.CalculateFruitClicksRequired` | src/lib/GameService.ts:200-209 | For any draw, clicks lie in [1,2] for small, [3,4] for medium and [5,6] for large fruit. |
| `Service.CalculateFruitPoints` | src/lib/GameService.ts:212-220 | For any draw, points lie in [10,20] for small, [30,50] for medium and [60,150] for large fruit. |
| `Service.CheckIfSpecial` | src/lib/GameService.ts:223-233 | A draw below 0.1 makes the fruit special. The second draw then gives the slow-down below 0.5 and the one-click bonus from 0.5 on. Any other first draw leaves the fruit unchanged. Only the special flag and bonus kind are ever touched. |
| `Service.SpawnedFruit` | src/lib/GameService.ts:236-253 | A spawned fruit has these properties. Its category is the category draw at the current level, so it is unlocked by the level. Its points and size are the draws for that category, its x is the second position draw for its size, and a special fruit carries the bonus its second draw picks. Clicks, points and size lie in the category's ranges. It starts at y = -size, and its original fall speed is interpolated from its size. It is special iff the draw is below 0.1, and then it has a bonus. It has 1 click while one-click is active and its drawn count otherwise. It falls at 0.7 of its original speed while the slow-down is active and at its original speed otherwise. |
| `Service.SpawnFruit` | src/lib/GameService.ts:236-255 | Spawning appends exactly the spawned fruit after the existing ones, unchanged and in order. Nothing else in the state changes. |
| `Service.IncreaseLevel` | src/lib/GameService.ts:258-267 | The level rises by exactly 1 iff score >= last increase score + 500. In that case the spawn interval is multiplied by 0.95 and the score is recorded. Otherwise the state is unchanged. |
| `Service.FallAndFilter` | src/lib/GameService.ts:269-278 | After the fall step, the kept fruits are exactly the fallen fruits that are not below y = 800: each is kept as many times as it occurs, in its original relative order, and nothing else is kept. The count is exactly the number of fruits dropped. |
| `Service.MoveFruitsDown` | src/lib/GameService.ts:269-278 | Exactly the fruits below 800 after falling are removed, every copy of the others is kept, and the survivors keep their order. The missed count grows by exactly the number removed. Nothing else changes. |
| `Service.CheckForMissedFruits` | src/lib/GameService.ts:280-285 | With 5 or more misses the game ends. Otherwise the state is unchanged. |
| `Service.SpawnIfDue` | src/lib/GameService.ts:289-294 | At or after the deadline, one fruit spawns and the next deadline is `now` plus the spawn interval. Before the deadline nothing changes. |
| `Service.UpdateGame` | src/lib/GameService.ts:288-301 | A tick is spawn, then fall and miss removal, then the game-over check, then the difficulty step. After it, 5 or more misses mean the game is over with no timer. A tick never changes the score or the bonus flags. |
| `Service.IntervalTick` | src/lib/GameService.ts:305-307 | A timer firing runs one tick while the timer is installed and changes nothing after `endGame` removed it. |
| `Service.FallSpeedModifier` | src/lib/GameService.ts:311-314 | Every live fruit's fall speed is multiplied by the modifier. Identities, clicks and heights are kept. |
| `Service.ExpireFallSpeedModifier` | src/lib/GameService.ts:315-320 | Every fruit live at expiry gets back its own original fall speed, and the slow-down flag is cleared. Identities, clicks and the one-click flag are kept. |
| `Service.OneClickModifier` | src/lib/GameService.ts:323-326 | Every live fruit is left with exactly one click. Identities, speeds and heights are kept. |
| `Service.ExpireOneClickModifier` | src/lib/GameService.ts:327-332 | Every fruit live at expiry gets back its own original click count, and the one-click flag is cleared. Identities, speeds and the slow-down flag are kept. |
| `Service.ActivateBonus` | src/lib/GameService.ts:341-357 | A bonus starts only when its flag is false, and afterwards its flag is true. If it is already running, nothing changes, so bonuses do not stack. A fruit that is not special changes nothing. Score and misses are untouched. |
| `Service.FindIndex` | src/lib/GameService.ts:336 | Finds the first fruit with the identifier, or reports that no fruit has it. |
| `Service.DestroyFruit` | src/lib/GameService.ts:340-361 | The destroying branch of a hit at one position sets the bonus flags as `ActivateBonus` decides. Each remaining fruit is the corresponding fruit after the bonus start, with exactly that position removed and the others in order. It adds exactly the fruit's points. Level, misses, game-over flag, timer, spawn interval, spawn deadline and last difficulty-increase score are unchanged. |
| `Service.SmashFruit` | src/lib/GameService.ts:335-363 | An unknown identifier changes nothing. A hit that leaves clicks replaces only that fruit. A destroying hit adds exactly that fruit's points and removes exactly its identifier from the list, keeping the others in order. It does not change the missed count. |
| `Invariants.SpawnFruitKeepsValid` | src/lib/GameService.ts:236-255 | Spawning with a fresh identifier keeps the invariant: values in range, at least one click left, bonus effects on every fruit, distinct identifiers. |
| `Invariants.MoveFruitsDownKeepsValid` | src/lib/GameService.ts:269-278 | The fall-and-filter pass keeps the invariant, including distinct identifiers. |
| `Invariants.SpawnIfDueKeepsValid` | src/lib/GameService.ts:289-294 | The spawn step of a tick keeps the invariant. |
| `Invariants.UpdateGameKeepsValid` | src/lib/GameService.ts:288-301 | A whole tick keeps the invariant. |
| `Invariants.ExpiriesKeepValid` | src/lib/GameService.ts:311-333 | Both bonus timeouts keep the invariant. |
| `Invariants.ActivateBonusKeepsOthersValid` | src/lib/GameService.ts:341-357 | Starting a bonus keeps every fruit other than the destroyed one in range and consistent with the new bonus flags: one click under one-click, and 0.8 or 0.7 of its original speed under the slow-down. |
| `Invariants.DestroyFruitKeepsValid` | src/lib/GameService.ts:340-361 | After a possible bonus start, adding the points and removing the destroyed fruit restore the whole invariant, including distinct identifiers. |
| `Invariants.SmashFruitKeepsValid` | src/lib/GameService.ts:335-363 | A hit keeps the invariant. |
| `Invariants.LifecycleKeepsValid` | src/lib/GameService.ts:118-372 | The new engine, a restart and an end all satisfy the invariant. |
| `Properties.FruitTypeGating` | src/lib/GameService.ts:183-197 | A category can be drawn at a level iff the level unlocks it. Both directions are proved, so medium is reachable exactly from level 3 and large exactly from level 5. |
| `Properties.ClicksReachable` | src/lib/GameService.ts:200-209 | Every click count in the category's range, the top included, is produced by some draw, so the range is inclusive at both ends. |
| `Properties.PointsReachable` | src/lib/GameService.ts:212-220 | Every point value in the category's range, the top included, is produced by some draw. |
| `Properties.SpawnKindGating` | src/lib/GameService.ts:236-245 | Spawning can produce a category at a level iff the level unlocks it: medium from level 3, large from level 5. |
| `Properties.SpecialBonusReachable` | src/lib/GameService.ts:229-231 | Either bonus can be given to a special fruit: some second draw in [0, 1) picks each of them. |
| `Properties.SpawnedFruitSurvivesItsTick` | src/lib/GameService.ts:288-296 | Because spawning comes before falling and the fruit starts at y = -size, a fruit spawned in a tick is still live, fallen once, after that tick. |
| `Properties.SmashUnknownIdIsNoOp` | src/lib/GameService.ts:335-337 | A hit on an identifier that no live fruit carries leaves score, fruits and bonus flags unchanged. |
| `Properties.SmashNonDestroyingHit` | src/lib/GameService.ts:335-340 | A hit that does not destroy the fruit changes only that fruit's clicks, by exactly one. All other fruits and fields are unchanged. |
| `Properties.SmashDestroyingHitWithoutBonus` | src/lib/GameService.ts:335-363 | A destroying hit that starts no bonus removes exactly that fruit, keeps the others unchanged and in order, and adds exactly its points. |
| `Properties.DestroyingHitAt` | src/lib/GameService.ts:335-361 | With distinct identifiers, a hit on a fruit with one click left takes the destroying branch at exactly that fruit's position. |
| `Properties.SmashDestroyingHitStartsBonus` | src/lib/GameService.ts:341-360 | A destroying hit on a special fruit whose bonus is not running sets that flag. Every other fruit gets one click, or 0.8 of its current speed. The fruit's points are added, and its identifier is removed. The others keep their order, their height, their identity and original values. No session field other than score, fruits and bonus flags changes. |
| `Properties.SmashNeverLowersScore` | src/lib/GameService.ts:359-360 | A hit never lowers the score. When it raises the score, it adds at least 10. |
| `Properties.TwoClickFruitNeedsTwoHits` | src/lib/GameService.ts:335-363 | For a two-click ordinary fruit, the first hit keeps it with the score unchanged. The second hit removes it and adds exactly its points. |
| `Properties.SmashScoresAfterGameOver` | src/lib/GameService.ts:335-363 | With no game-over guard, a destroying hit after the game ended still adds the fruit's points. |
| `Properties.OneClickBonusRestoresOwnOriginals` | src/lib/GameService.ts:323-333 | After the one-click bonus starts, every other fruit has one click. At expiry each gets back its own original click count, and the flag is cleared. |
| `Properties.OneClickSpawnRevertsToDrawnClicks` | src/lib/GameService.ts:251-252 | A fruit spawned while one-click runs has one click. On expiry it gets back the count drawn for it, which is in its category's range. |
| `Properties.SlowDownBonusRestoresOwnOriginals` | src/lib/GameService.ts:311-321 | After the slow-down starts, every other fruit falls at 0.8 of its own original speed. After expiry it falls at exactly that original speed. |
| `Properties.TickStepsAndGameOver` | src/lib/GameService.ts:288-301 | A tick raises the level by 0 or 1 and adds exactly the dropped fruits to the misses. Once there are 5 misses, the game is over and later timer firings change nothing. |
| `Properties.Step` | src/lib/GameService.ts:303-307 | A restart installs the timer and clears score and fruits. A hit is `smashFruit`. A timer firing after `endGame` changes nothing. |
| `Properties.RunKeepsValid` | src/lib/GameService.ts:288-372 | Any sequence of restarts, timer firings with fresh identifiers, hits, bonus timeouts and ends keeps the invariant. |
| `Properties.StepCountersNeverDecrease` | src/lib/GameService.ts:258-363 | A timer firing, a hit, a bonus timeout or an end never lowers score, missed count or level. |
| `Properties.CountersNeverDecrease` | src/lib/GameService.ts:258-363 | Along any sequence of events without a restart, score, missed count and level never go down. |
| `Properties.GameOverIsPermanent` | src/lib/GameService.ts:161-170 | Once over, the game stays over along any sequence of events, restarts included, because reset does not clear the flag. |
| `Properties.TicksAfterEndDoNothing` | src/lib/GameService.ts:365-370 | Once the timer is removed, any number of timer firings leave the state unchanged: nothing spawns, falls or is missed. |

## Left out

- `src/hooks.server.ts` is authentication wiring for the web framework and has no game logic.
- Observable stores (`writable`, `get`, subscribe/notify) become plain fields. The getters `getScore`, `getFruits`, `gameOver`, `getMissedFruits` and `getDifficultyLevel` are field reads.
- Real timers are not modelled: `setInterval`, `clearInterval`, `setTimeout` and the 10 000 ms and 3 000 ms durations. A bonus timeout is an event that may happen at any time, which includes the real schedule.
- A second `startGame` without `endGame` installs a second interval in the source. One flag cannot show that, so the model installs at most one timer.
- Identifier generation from the clock and a random number (`generateUniqueId`) is replaced by a natural supplied with each spawn. Freshness is an assumption of the invariant lemmas, not something the source checks.
- Image paths, rotation direction and speed, the CSS `specialEffect` string, and `console.log` output are not modelled; they only affect display.
- Floating-point rounding is not modelled: speeds, heights and the spawn interval are exact reals.
- `isFalling` is never set to false in the source. The model keeps the field and its branch in `Fall`, and the invariant records that it stays true.

=== FILE: base.dfy ===
/** Small generic building blocks shared by the game model: an optional value,
    removal of one sequence position, and the "is a subsequence of" relation
    used to say that filtering keeps the relative order of what survives. */
module Base {

  /** A value that may be absent; stands for an index lookup that can fail. */
  datatype Option<+T> = None | Some(value: T)

  /** The sequence `s` without its element at position `i`; the others keep their order. */
  function RemoveAt<T>(s: seq<T>, i: nat): (r: seq<T>)
    requires i < |s|
    ensures |r| == |s| - 1
    ensures forall j :: 0 <= j < i ==> r[j] == s[j]
    ensures forall j :: i <= j < |r| ==> r[j] == s[j + 1]
  {
    s[..i] + s[i + 1..]
  }

  /** `a` can be obtained from `b` by deleting elements: every element of `a`
      occurs in `b`, in the same relative order. */
  predicate SubseqOf<T(==)>(a: seq<T>, b: seq<T>)
    decreases |b|
  {
    if |a| == 0 then true
    else if |b| == 0 then false
    else (a[0] == b[0] && SubseqOf(a[1..], b[1..])) || SubseqOf(a, b[1..])
  }

  /** Every element of a subsequence is an element of the sequence it was taken from. */
  lemma {:induction false} SubseqMembers<T>(a: seq<T>, b: seq<T>)
    requires SubseqOf(a, b)
    ensures forall x :: x in a ==> x in b
    decreases |b|
  {
    if |a| != 0 && |b| != 0 {
      if a[0] == b[0] && SubseqOf(a[1..], b[1..]) {
        SubseqMembers(a[1..], b[1..]);
        forall x | x in a ensures x in b {
          if x != a[0] {
            assert x in a[1..];
            assert x in b[1..];
          }
        }
      } else {
        SubseqMembers(a, b[1..]);
        forall x | x in a ensures x in b {
          assert x in b[1..];
        }
      }
    }
  }
}

=== FILE: fruits.dfy ===
/** The falling object of the fruit-smash game: its category tables, the random
    draws that size and place it, its fall, the hit counter, and the temporary
    modifiers that bonuses apply and later revert. Each `Math.random()` draw of
    the game is a parameter `r` with `0.0 <= r < 1.0`. */
module Fruits {
  import opened Base

  /** Width of the play area in pixels (`GameService.gameBoardWidth`). */
  const GameBoardWidth: int := 800

  /** Fall-speed interpolation: `MinSpeed` at `MinSize`, `MaxSpeed` at `MaxSize`. */
  const MinSize: int := 100
  const MaxSize: int := 300
  const MinSpeed: real := 0.3
  const MaxSpeed: real := 1.3

  /** The three fruit categories. */
  datatype FruitType = Small | Medium | Large

  /** The two timed effects a special fruit may carry. */
  datatype BonusType = ReduceFallSpeed | OneClickFruit

  /** One falling fruit. Pixel quantities `size` and `x` are integers (they are
      floored draws); `y` and the speeds are exact reals. `originalClicksRequired`
      and `originalFallSpeed` are fixed when the fruit is built and are what the
      bonus expiries restore. The image path and rotation are cosmetic and not
      part of the model. */
  datatype Fruit = Fruit(
    id: nat,
    kind: FruitType,
    points: int,
    clicksRequired: int,
    isSpecial: bool,
    bonusType: Option<BonusType>,
    y: real,
    x: int,
    isFalling: bool,
    size: int,
    fallSpeed: real,
    originalFallSpeed: real,
    originalClicksRequired: int)

  /** Bounds of one random draw, `min` to `max`. Each table that returns a
      `Range` says whether its `max` can be drawn. */
  datatype Range = Range(min: int, max: int)

  /** Size bounds per category. Half-open: a drawn size lies in `[min, max)`,
      so `max` itself is never drawn. */
  function SizeRange(kind: FruitType): Range {
    match kind
    case Small => Range(100, 150)
    case Medium => Range(170, 220)
    case Large => Range(230, 300)
  }

  /** The fields a fruit keeps for its whole life once spawned: everything except
      its height `y`, its remaining clicks and its current fall speed. */
  predicate SameIdentity(a: Fruit, b: Fruit) {
    a.id == b.id && a.kind == b.kind && a.points == b.points
    && a.isSpecial == b.isSpecial && a.bonusType == b.bonusType
    && a.x == b.x && a.isFalling == b.isFalling && a.size == b.size
    && a.originalFallSpeed == b.originalFallSpeed
    && a.originalClicksRequired == b.originalClicksRequired
  }

  /** `Math.floor(r * width + min)`: an integer in `[min, min + width)`. */
  function FloorDraw(r: real, width: int, min: int): (n: int)
    requires 0.0 <= r < 1.0
    requires width > 0
    ensures min <= n < min + width
  {
    ScaledDrawBounds(r, width);
    (r * width as real + min as real).Floor
  }

  /** A draw in `[0, 1)` scaled by a positive width stays in `[0, width)`. */
  lemma ScaledDrawBounds(r: real, width: int)
    requires 0.0 <= r < 1.0
    ensures width > 0 ==> 0.0 <= r * width as real < width as real
  {
  }

  /** Linear interpolation of the fall speed from the size. */
  function CalculateFallSpeed(size: int): (speed: real)
    ensures size == MinSize ==> speed == MinSpeed
    ensures size == MaxSize ==> speed == MaxSpeed
    ensures MinSize <= size <= MaxSize ==> MinSpeed <= speed <= MaxSpeed
  {
    MinSpeed + ((size - MinSize) as real / (MaxSize - MinSize) as real) * (MaxSpeed - MinSpeed)
  }

  /** A larger fruit never falls slower. */
  lemma FallSpeedMonotone(a: int, b: int)
    requires a <= b
    ensures CalculateFallSpeed(a) <= CalculateFallSpeed(b)
  {
  }

  /** The speed is linear in the size: a larger fruit falls strictly faster,
      and the difference in speed is the difference in size times the constant
      slope `(MaxSpeed - MinSpeed) / (MaxSize - MinSize)`. */
  lemma FallSpeedLinear(a: int, b: int)
    ensures a < b ==> CalculateFallSpeed(a) < CalculateFallSpeed(b)
    ensures CalculateFallSpeed(b) - CalculateFallSpeed(a)
              == (b - a) as real * (MaxSpeed - MinSpeed) / (MaxSize - MinSize) as real
  {
  }

  /** A horizontal position that keeps the whole fruit on the board whenever the
      fruit is narrower than the board. */
  function RandomXPosition(size: int, r: real): (x: int)
    requires 0.0 <= r < 1.0
    ensures size < GameBoardWidth ==> 0 <= x && x + size < GameBoardWidth
  {
    ScaledDrawBounds(r, GameBoardWidth - size);
    (r * (GameBoardWidth - size) as real).Floor
  }

  /** Every position that keeps a fruit narrower than the board on it is
      produced by some draw. */
  lemma XReachable(size: int, n: int)
    requires size < GameBoardWidth && 0 <= n < GameBoardWidth - size
    ensures exists r: real :: 0.0 <= r < 1.0 && RandomXPosition(size, r) == n
  {
    var r := n as real / (GameBoardWidth - size) as real;
    assert r * (GameBoardWidth - size) as real == n as real;
    assert RandomXPosition(size, r) == n;
  }

  /** A size drawn from the category's half-open range. */
  function CalculateSize(kind: FruitType, r: real): (size: int)
    requires 0.0 <= r < 1.0
    ensures SizeRange(kind).min <= size < SizeRange(kind).max
  {
    var range := SizeRange(kind);
    FloorDraw(r, range.max - range.min, range.min)
  }

  /** Every size in the category's half-open range is produced by some draw. */
  lemma SizeReachable(kind: FruitType, n: int)
    requires SizeRange(kind).min <= n < SizeRange(kind).max
    ensures exists r: real :: 0.0 <= r < 1.0 && CalculateSize(kind, r) == n
  {
    var range := SizeRange(kind);
    var r := (n - range.min) as real / (range.max - range.min) as real;
    assert r * (range.max - range.min) as real + range.min as real == n as real;
    assert CalculateSize(kind, r) == n;
  }

  /** The constructor: draws the size (from `rSize`) and a first horizontal
      position (from `rX`), derives the fall speed, and records the original
      clicks and fall speed. */
  function NewFruit(id: nat, kind: FruitType, points: int, clicksRequired: int,
                    isSpecial: bool, bonusType: Option<BonusType>,
                    rSize: real, rX: real): (f: Fruit)
    requires 0.0 <= rSize < 1.0 && 0.0 <= rX < 1.0
    ensures f.id == id && f.kind == kind && f.points == points
    ensures f.isSpecial == isSpecial && f.bonusType == bonusType
    ensures f.clicksRequired == clicksRequired && f.originalClicksRequired == clicksRequired
    ensures SizeRange(kind).min <= f.size < SizeRange(kind).max
    ensures MinSpeed <= f.fallSpeed <= MaxSpeed
    ensures f.fallSpeed == f.originalFallSpeed == CalculateFallSpeed(f.size)
    ensures 0 <= f.x && f.x + f.size < GameBoardWidth
    ensures f.y == 0.0 && f.isFalling
  {
    var size := CalculateSize(kind, rSize);
    var speed := CalculateFallSpeed(size);
    Fruit(id, kind, points, clicksRequired, isSpecial, bonusType,
          0.0, RandomXPosition(size, rX), true, size, speed, speed, clicksRequired)
  }

  /** One animation step: a falling fruit moves down by its current speed. */
  function Fall(f: Fruit): (g: Fruit)
    ensures SameIdentity(f, g)
    ensures g.clicksRequired == f.clicksRequired && g.fallSpeed == f.fallSpeed
    ensures f.isFalling ==> g.y == f.y + f.fallSpeed
    ensures !f.isFalling ==> g == f
  {
    if f.isFalling then f.(y := f.y + f.fallSpeed) else f
  }

  /** The result of one hit: the updated fruit and whether it is destroyed. */
  datatype SmashOutcome = SmashOutcome(fruit: Fruit, destroyed: bool)

  /** One hit removes exactly one required click; the fruit is destroyed exactly
      when no click is left. Nothing else about the fruit changes. */
  function Smash(f: Fruit): (r: SmashOutcome)
    ensures r.fruit.clicksRequired == f.clicksRequired - 1
    ensures r.destroyed <==> r.fruit.clicksRequired <= 0
    ensures SameIdentity(f, r.fruit) && r.fruit.y == f.y && r.fruit.fallSpeed == f.fallSpeed
  {
    var g := f.(clicksRequired := f.clicksRequired - 1);
    SmashOutcome(g, g.clicksRequired <= 0)
  }

  /** Scales the current fall speed; identity, clicks and height are untouched. */
  function ApplyFallSpeedModifier(f: Fruit, modifier: real): (g: Fruit)
    ensures SameIdentity(f, g) && g.y == f.y && g.clicksRequired == f.clicksRequired
    ensures g.fallSpeed == f.fallSpeed * modifier
  {
    f.(fallSpeed := f.fallSpeed * modifier)
  }

  /** Makes the fruit destructible by a single hit. */
  function ApplyOneClickModifier(f: Fruit): (g: Fruit)
    ensures SameIdentity(f, g) && g.y == f.y && g.fallSpeed == f.fallSpeed
    ensures g.clicksRequired == 1
  {
    f.(clicksRequired := 1)
  }

  /** Restores the fall speed the fruit was built with, however it was scaled. */
  function RevertToOriginalFallSpeed(f: Fruit): (g: Fruit)
    ensures SameIdentity(f, g) && g.y == f.y && g.clicksRequired == f.clicksRequired
    ensures g.fallSpeed == f.originalFallSpeed
  {
    f.(fallSpeed := f.originalFallSpeed)
  }

  /** Restores the fruit's own drawn click count, discarding earlier hits. */
  function RevertToOriginalClicksRequired(f: Fruit): (g: Fruit)
    ensures SameIdentity(f, g) && g.y == f.y && g.fallSpeed == f.fallSpeed
    ensures g.clicksRequired == f.originalClicksRequired
  {
    f.(clicksRequired := f.originalClicksRequired)
  }

  /** Applying either modifier and then reverting it gives back the fruit's own
      original value, whatever value it had before. */
  lemma RevertUndoesModifiers(f: Fruit, modifier: real)
    ensures RevertToOriginalFallSpeed(ApplyFallSpeedModifier(f, modifier)).fallSpeed == f.originalFallSpeed
    ensures RevertToOriginalClicksRequired(ApplyOneClickModifier(f)).clicksRequired == f.originalClicksRequired
    ensures f.fallSpeed == f.originalFallSpeed ==>
              RevertToOriginalFallSpeed(ApplyFallSpeedModifier(f, modifier)) == f
    ensures f.clicksRequired == f.originalClicksRequired ==>
              RevertToOriginalClicksRequired(ApplyOneClickModifier(f)) == f
  {
  }
}

=== FILE: game_invariants.dfy ===
/** The session invariant of the game engine and its preservation by every
    transition: each live fruit carries values drawn from its category's ranges,
    at least one click is left on it, the active bonuses are reflected in every
    live fruit, and no two live fruits share an identifier. */
module Invariants {
  import opened Base
  import opened Fruits
  import opened Service

  /** A live fruit as spawning builds it and the other transitions keep it. */
  predicate WellFormed(f: Fruit) {
    SizeRange(f.kind).min <= f.size < SizeRange(f.kind).max
    && ClicksRange(f.kind).min <= f.originalClicksRequired <= ClicksRange(f.kind).max
    && PointsRange(f.kind).min <= f.points <= PointsRange(f.kind).max
    && f.originalFallSpeed == CalculateFallSpeed(f.size)
    && 1 <= f.clicksRequired <= f.originalClicksRequired
    && 0 <= f.x && f.x + f.size < GameBoardWidth
    && f.isFalling
    && (f.isSpecial <==> f.bonusType.Some?)
  }

  /** Without the slow-down a fruit falls at its original speed; with it, at the
      original speed scaled by the activation factor or by the spawn factor. */
  predicate FallSpeedConsistent(f: Fruit, slowed: bool) {
    if slowed then
      f.fallSpeed == f.originalFallSpeed * BonusSlowFactor
      || f.fallSpeed == f.originalFallSpeed * SpawnSlowFactor
    else
      f.fallSpeed == f.originalFallSpeed
  }

  /** No identifier occurs twice. */
  predicate UniqueIds(fs: seq<Fruit>) {
    forall i, j :: 0 <= i < j < |fs| ==> fs[i].id != fs[j].id
  }

  /** The session invariant. */
  predicate Valid(s: GameState) {
    (forall i :: 0 <= i < |s.fruits| ==>
       WellFormed(s.fruits[i]) && FallSpeedConsistent(s.fruits[i], s.bonus.reduceFallSpeedActive))
    && (s.bonus.oneClickActive ==> forall i :: 0 <= i < |s.fruits| ==> s.fruits[i].clicksRequired == 1)
    && UniqueIds(s.fruits)
    && s.score >= 0 && s.missedFruits >= 0 && s.difficultyLevel >= 1 && s.spawnRate > 0.0
  }

  /** A subsequence of a list with distinct identifiers has distinct identifiers. */
  lemma {:induction false} SubseqKeepsUniqueIds(a: seq<Fruit>, b: seq<Fruit>)
    requires SubseqOf(a, b) && UniqueIds(b)
    ensures UniqueIds(a)
    decreases |b|
  {
    if |a| != 0 {
      if a[0] == b[0] && SubseqOf(a[1..], b[1..]) {
        SubseqKeepsUniqueIds(a[1..], b[1..]);
        SubseqMembers(a[1..], b[1..]);
        forall i, j | 0 <= i < j < |a| ensures a[i].id != a[j].id {
          if i == 0 {
            assert a[j] in a[1..];
            assert a[j] in b[1..];
            var m :| 0 <= m < |b[1..]| && b[1..][m] == a[j];
            assert b[m + 1] == a[j];
          } else {
            assert a[i] == a[1..][i - 1] && a[j] == a[1..][j - 1];
          }
        }
      } else {
        SubseqKeepsUniqueIds(a, b[1..]);
      }
    }
  }

  /** Spawning with a fresh identifier keeps the invariant. */
  lemma SpawnFruitKeepsValid(s: GameState, d: SpawnDraws)
    requires Valid(s) && ValidDraws(d) && d.id !in Ids(s.fruits)
    ensures Valid(SpawnFruit(s, d))
  {
  }

  /** The fall-and-filter pass keeps the invariant. */
  lemma MoveFruitsDownKeepsValid(s: GameState)
    requires Valid(s)
    ensures Valid(MoveFruitsDown(s))
  {
    var r := MoveFruitsDown(s);
    var fallen := FallAll(s.fruits);
    assert UniqueIds(fallen) by {
      forall i, j | 0 <= i < j < |fallen| ensures fallen[i].id != fallen[j].id {
        assert fallen[i].id == s.fruits[i].id && fallen[j].id == s.fruits[j].id;
      }
    }
    SubseqKeepsUniqueIds(r.fruits, fallen);
    forall i | 0 <= i < |r.fruits|
      ensures WellFormed(r.fruits[i]) && FallSpeedConsistent(r.fruits[i], r.bonus.reduceFallSpeedActive)
      ensures r.bonus.oneClickActive ==> r.fruits[i].clicksRequired == 1
    {
      assert r.fruits[i] in fallen;
      var k :| 0 <= k < |fallen| && fallen[k] == r.fruits[i];
      assert r.fruits[i] == Fall(s.fruits[k]);
    }
  }

  /** The first tick step keeps the invariant when the draw's identifier is fresh. */
  lemma SpawnIfDueKeepsValid(s: GameState, now: int, d: SpawnDraws)
    requires Valid(s) && ValidDraws(d) && d.id !in Ids(s.fruits)
    ensures Valid(SpawnIfDue(s, now, d))
  {
  }

  /** A whole tick keeps the invariant. */
  lemma UpdateGameKeepsValid(s: GameState, now: int, d: SpawnDraws)
    requires Valid(s) && ValidDraws(d) && d.id !in Ids(s.fruits)
    ensures Valid(UpdateGame(s, now, d))
  {
    SpawnIfDueKeepsValid(s, now, d);
    MoveFruitsDownKeepsValid(SpawnIfDue(s, now, d));
  }

  /** Both bonus expiries keep the invariant. */
  lemma ExpiriesKeepValid(s: GameState)
    requires Valid(s)
    ensures Valid(ExpireFallSpeedModifier(s))
    ensures Valid(ExpireOneClickModifier(s))
  {
  }

  /** The per-fruit part of the invariant, for every position except `i`. */
  predicate ValidExcept(s: GameState, i: nat) {
    forall j :: 0 <= j < |s.fruits| && j != i ==>
      WellFormed(s.fruits[j]) && FallSpeedConsistent(s.fruits[j], s.bonus.reduceFallSpeedActive)
      && (s.bonus.oneClickActive ==> s.fruits[j].clicksRequired == 1)
  }

  /** Starting the bonus of a destroyed fruit keeps the invariant of the other
      fruits: positions other than `i` satisfy it afterwards. */
  lemma ActivateBonusKeepsOthersValid(s: GameState, i: nat, f: Fruit)
    requires i < |s.fruits| && ValidExcept(s, i)
    ensures ValidExcept(ActivateBonus(s, f), i)
  {
  }

  /** Distinct identifiers stay distinct when one position is removed. */
  lemma RemoveAtKeepsUniqueIds(fs: seq<Fruit>, i: nat, gs: seq<Fruit>)
    requires i < |fs| && UniqueIds(fs) && Ids(gs) == RemoveAt(Ids(fs), i)
    ensures UniqueIds(gs)
  {
    forall a, b | 0 <= a < b < |gs| ensures gs[a].id != gs[b].id {
      var a' := if a < i then a else a + 1;
      var b' := if b < i then b else b + 1;
      assert gs[a].id == Ids(gs)[a] == Ids(fs)[a'] == fs[a'].id;
      assert gs[b].id == Ids(gs)[b] == Ids(fs)[b'] == fs[b'].id;
    }
  }

  /** The destroying branch of a hit restores the whole invariant, whatever
      state the destroyed fruit itself was left in. */
  lemma DestroyFruitKeepsValid(s: GameState, i: nat, f: Fruit)
    requires i < |s.fruits| && ValidExcept(s, i) && UniqueIds(s.fruits)
    requires s.score >= 0 && s.missedFruits >= 0 && s.difficultyLevel >= 1 && s.spawnRate > 0.0
    requires f.points >= 0
    ensures Valid(DestroyFruit(s, i, f))
  {
    var r := DestroyFruit(s, i, f);
    var active := ActivateBonus(s, f);
    ActivateBonusKeepsOthersValid(s, i, f);
    assert r.fruits == RemoveAt(active.fruits, i);
    forall j | 0 <= j < |r.fruits|
      ensures WellFormed(r.fruits[j]) && FallSpeedConsistent(r.fruits[j], r.bonus.reduceFallSpeedActive)
      ensures r.bonus.oneClickActive ==> r.fruits[j].clicksRequired == 1
    {
      var j' := if j < i then j else j + 1;
      assert r.fruits[j] == active.fruits[j'];
    }
    RemoveAtKeepsUniqueIds(s.fruits, i, r.fruits);
  }

  /** A hit keeps the invariant. */
  lemma SmashFruitKeepsValid(s: GameState, id: nat)
    requires Valid(s)
    ensures Valid(SmashFruit(s, id))
  {
    match FindIndex(s.fruits, id)
    case None =>
    case Some(i) =>
      var hit := Smash(s.fruits[i]);
      var hitState := s.(fruits := s.fruits[i := hit.fruit]);
      assert ValidExcept(hitState, i);
      assert UniqueIds(hitState.fruits) by {
        forall a, b | 0 <= a < b < |hitState.fruits|
          ensures hitState.fruits[a].id != hitState.fruits[b].id
        {
          assert hitState.fruits[a].id == s.fruits[a].id && hitState.fruits[b].id == s.fruits[b].id;
        }
      }
      if hit.destroyed {
        DestroyFruitKeepsValid(hitState, i, hit.fruit);
      } else {
        assert !s.bonus.oneClickActive;
      }
  }

  /** The freshly constructed engine satisfies the invariant, and so does every
      state reached by starting or ending a game from a valid one. */
  lemma LifecycleKeepsValid(s: GameState)
    requires Valid(s)
    ensures Valid(NewGameService())
    ensures Valid(StartGame(s)) && Valid(EndGame(s))
  {
  }
}

=== FILE: game_properties.dfy ===
/** Properties of the game engine that relate several operations or several
    calls: category gating, hits and scoring, bonus activation without stacking,
    reversion to each fruit's own originals, the order of the steps inside a
    tick, and what holds along any sequence of driver events. */
module Properties {
  import opened Base
  import opened Fruits
  import opened Service
  import opened Invariants

  // ---------------------------------------------------------------- spawning

  /** Every category the level unlocks can actually be drawn, so the gating is
      exact: small always, medium exactly from level 3, large exactly from level 5. */
  lemma FruitTypeGating(level: int, kind: FruitType)
    ensures Unlocked(level, kind) <==>
              exists r: real :: 0.0 <= r < 1.0 && CalculateFruitType(level, r) == kind
  {
    if Unlocked(level, kind) {
      var r := match kind case Small => 0.0 case Medium => 0.5 case Large => 0.9;
      assert CalculateFruitType(level, r) == kind;
    }
  }

  /** Every click count in a category's inclusive range can be drawn, so the
      top of the range is reachable too. */
  lemma ClicksReachable(kind: FruitType, n: int)
    requires ClicksRange(kind).min <= n <= ClicksRange(kind).max
    ensures exists r: real :: 0.0 <= r < 1.0 && CalculateFruitClicksRequired(kind, r) == n
  {
    var range := ClicksRange(kind);
    var r := (n - range.min) as real / (range.max - range.min + 1) as real;
    assert r * (range.max - range.min + 1) as real + range.min as real == n as real;
    assert CalculateFruitClicksRequired(kind, r) == n;
  }

  /** Every point value in a category's inclusive range can be drawn. */
  lemma PointsReachable(kind: FruitType, n: int)
    requires PointsRange(kind).min <= n <= PointsRange(kind).max
    ensures exists r: real :: 0.0 <= r < 1.0 && CalculateFruitPoints(kind, r) == n
  {
    var range := PointsRange(kind);
    var r := (n - range.min) as real / (range.max - range.min + 1) as real;
    assert r * (range.max - range.min + 1) as real + range.min as real == n as real;
    assert CalculateFruitPoints(kind, r) == n;
  }

  /** Spawning follows the level's gating exactly: some draws spawn a fruit of a
      category iff the level unlocks that category. */
  lemma SpawnKindGating(s: GameState, kind: FruitType)
    ensures Unlocked(s.difficultyLevel, kind) <==>
              exists d: SpawnDraws :: ValidDraws(d) && SpawnedFruit(s, d).kind == kind
  {
    if Unlocked(s.difficultyLevel, kind) {
      var r := match kind case Small => 0.0 case Medium => 0.5 case Large => 0.9;
      var d := SpawnDraws(0, r, 0.0, 0.0, 0.0, 0.0, 0.0, 0.0, 0.0);
      assert CalculateFruitType(s.difficultyLevel, r) == kind;
      assert SpawnedFruit(s, d).kind == kind;
    }
  }

  /** Both bonuses can be given to a special fruit: the second draw picks the
      slow-down below 0.5 and the one-click bonus from 0.5 on. */
  lemma SpecialBonusReachable(f: Fruit, kind: BonusType)
    ensures exists r: real :: 0.0 <= r < 1.0 && CheckIfSpecial(f, 0.0, r).bonusType == Some(kind)
  {
    var r := match kind case ReduceFallSpeed => 0.0 case OneClickFruit => 0.75;
    assert CheckIfSpecial(f, 0.0, r).bonusType == Some(kind);
  }

  /** A freshly spawned fruit is never counted as missed in the tick that
      spawned it: it starts above the board and falls by less than its size. */
  lemma SpawnedFruitSurvivesItsTick(s: GameState, now: int, d: SpawnDraws)
    requires ValidDraws(d) && now as real >= s.nextSpawnTime
    ensures Fall(SpawnedFruit(s, d)) in UpdateGame(s, now, d).fruits
  {
  }

  // ---------------------------------------------------------------- hits

  /** A hit on an identifier that no live fruit carries leaves the whole state,
      score, fruits and bonus flags included, unchanged. */
  lemma SmashUnknownIdIsNoOp(s: GameState, id: nat)
    requires id !in Ids(s.fruits)
    ensures SmashFruit(s, id) == s
  {
  }

  /** A hit that does not destroy its fruit changes only that fruit's click
      count, by exactly one. */
  lemma SmashNonDestroyingHit(s: GameState, i: nat)
    requires Valid(s) && i < |s.fruits| && s.fruits[i].clicksRequired > 1
    ensures var r := SmashFruit(s, s.fruits[i].id);
            |r.fruits| == |s.fruits|
            && r.fruits[i].clicksRequired == s.fruits[i].clicksRequired - 1
            && SameIdentity(r.fruits[i], s.fruits[i])
            && r.fruits[i].y == s.fruits[i].y && r.fruits[i].fallSpeed == s.fruits[i].fallSpeed
            && (forall j :: 0 <= j < |s.fruits| && j != i ==> r.fruits[j] == s.fruits[j])
            && r.(fruits := s.fruits) == s
  {
  }

  /** With distinct identifiers, a hit on the fruit at position `i` with one
      click left takes the destroying branch at exactly that position. */
  lemma DestroyingHitAt(s: GameState, i: nat)
    requires UniqueIds(s.fruits) && i < |s.fruits| && s.fruits[i].clicksRequired == 1
    ensures var hit := Smash(s.fruits[i]);
            var active := ActivateBonus(s.(fruits := s.fruits[i := hit.fruit]), hit.fruit);
            SmashFruit(s, s.fruits[i].id)
              == AddScore(active, s.fruits[i].points).(fruits := RemoveAt(active.fruits, i))
  {
    assert FindIndex(s.fruits, s.fruits[i].id) == Some(i);
  }

  /** A destroying hit on a fruit whose bonus does not start (it is not special,
      or its kind of bonus is already running) removes exactly that fruit, keeps
      the others in order and unchanged, leaves the bonus flags alone, and adds
      exactly its points. */
  lemma SmashDestroyingHitWithoutBonus(s: GameState, i: nat)
    requires Valid(s) && i < |s.fruits| && s.fruits[i].clicksRequired == 1
    requires var f := s.fruits[i];
             !f.isSpecial
             || (f.bonusType == Some(ReduceFallSpeed) && s.bonus.reduceFallSpeedActive)
             || (f.bonusType == Some(OneClickFruit) && s.bonus.oneClickActive)
    ensures var r := SmashFruit(s, s.fruits[i].id);
            r.fruits == RemoveAt(s.fruits, i)
            && r.score == s.score + s.fruits[i].points
            && r.bonus == s.bonus
            && r.(fruits := s.fruits, score := s.score) == s
  {
    DestroyingHitAt(s, i);
    var hit := Smash(s.fruits[i]);
    assert RemoveAt(s.fruits[i := hit.fruit], i) == RemoveAt(s.fruits, i);
  }

  /** A destroying hit on a special fruit whose kind of bonus is not running
      starts it: the flag becomes true and every other live fruit gets the
      modifier (one click left, or its current fall speed scaled by 0.8); it then
      adds exactly the fruit's points and removes exactly that fruit. No other
      fruit moves, and no other part of the session changes. */
  lemma SmashDestroyingHitStartsBonus(s: GameState, i: nat)
    requires Valid(s) && i < |s.fruits| && s.fruits[i].clicksRequired == 1
    requires s.fruits[i].isSpecial
    requires s.fruits[i].bonusType == Some(ReduceFallSpeed) ==> !s.bonus.reduceFallSpeedActive
    requires s.fruits[i].bonusType == Some(OneClickFruit) ==> !s.bonus.oneClickActive
    ensures var r := SmashFruit(s, s.fruits[i].id);
            var others := RemoveAt(s.fruits, i);
            r.score == s.score + s.fruits[i].points
            && Ids(r.fruits) == Ids(others)
            && (forall j :: 0 <= j < |others| ==>
                  SameIdentity(r.fruits[j], others[j]) && r.fruits[j].y == others[j].y)
            && r.(fruits := s.fruits, score := s.score, bonus := s.bonus) == s
            && (s.fruits[i].bonusType == Some(ReduceFallSpeed) ==>
                  r.bonus == s.bonus.(reduceFallSpeedActive := true)
                  && forall j :: 0 <= j < |others| ==>
                       r.fruits[j].fallSpeed == others[j].fallSpeed * BonusSlowFactor
                       && r.fruits[j].clicksRequired == others[j].clicksRequired)
            && (s.fruits[i].bonusType == Some(OneClickFruit) ==>
                  r.bonus == s.bonus.(oneClickActive := true)
                  && forall j :: 0 <= j < |others| ==>
                       r.fruits[j].clicksRequired == 1
                       && r.fruits[j].fallSpeed == others[j].fallSpeed)
  {
    DestroyingHitAt(s, i);
    var hit := Smash(s.fruits[i]);
    var hitState := s.(fruits := s.fruits[i := hit.fruit]);
    var active := ActivateBonus(hitState, hit.fruit);
    var r := SmashFruit(s, s.fruits[i].id);
    var others := RemoveAt(s.fruits, i);
    assert r.fruits == RemoveAt(active.fruits, i);
    forall j | 0 <= j < |others|
      ensures SameIdentity(r.fruits[j], others[j]) && r.fruits[j].y == others[j].y
      ensures s.fruits[i].bonusType == Some(ReduceFallSpeed) ==>
                r.fruits[j].fallSpeed == others[j].fallSpeed * BonusSlowFactor
                && r.fruits[j].clicksRequired == others[j].clicksRequired
      ensures s.fruits[i].bonusType == Some(OneClickFruit) ==>
                r.fruits[j].clicksRequired == 1 && r.fruits[j].fallSpeed == others[j].fallSpeed
    {
      var j' := if j < i then j else j + 1;
      assert others[j] == s.fruits[j'] == hitState.fruits[j'];
      assert r.fruits[j] == active.fruits[j'];
    }
  }

  /** Score never goes down on a hit, and a destroying hit adds at least the
      smallest number of points any category awards. */
  lemma SmashNeverLowersScore(s: GameState, id: nat)
    requires Valid(s)
    ensures SmashFruit(s, id).score >= s.score
    ensures SmashFruit(s, id).score == s.score
            || SmashFruit(s, id).score >= s.score + PointsRange(Small).min
  {
  }

  /** The scenario of a two-click fruit: the first hit leaves it with one click
      and the score unchanged; the second removes it and adds exactly its points. */
  lemma TwoClickFruitNeedsTwoHits(s: GameState, i: nat)
    requires Valid(s) && i < |s.fruits| && s.fruits[i].clicksRequired == 2
    requires !s.fruits[i].isSpecial
    ensures var id := s.fruits[i].id;
            var once := SmashFruit(s, id);
            var twice := SmashFruit(once, id);
            once.score == s.score && id in Ids(once.fruits)
            && twice.score == s.score + s.fruits[i].points
            && id !in Ids(twice.fruits)
            && twice.fruits == RemoveAt(s.fruits, i)
  {
    var id := s.fruits[i].id;
    SmashNonDestroyingHit(s, i);
    var once := SmashFruit(s, id);
    assert Ids(once.fruits)[i] == id;
    SmashFruitKeepsValid(s, id);
    SmashDestroyingHitWithoutBonus(once, i);
    var twice := SmashFruit(once, id);
    assert RemoveAt(once.fruits, i) == RemoveAt(s.fruits, i);
  }

  /** No game-over guard: a destroying hit still scores after the game ended. */
  lemma SmashScoresAfterGameOver(s: GameState, i: nat)
    requires Valid(s) && s.isGameOver && i < |s.fruits| && s.fruits[i].clicksRequired == 1
    ensures SmashFruit(s, s.fruits[i].id).score == s.score + s.fruits[i].points
    ensures SmashFruit(s, s.fruits[i].id).score > s.score
  {
  }

  // ---------------------------------------------------------------- bonus reversion

  /** The one-click bonus from start to expiry: starting it leaves every other
      live fruit with one click; its expiry gives each of them back its own
      click count as drawn at construction, and clears the flag. */
  lemma OneClickBonusRestoresOwnOriginals(s: GameState, i: nat)
    requires Valid(s) && i < |s.fruits| && s.fruits[i].clicksRequired == 1
    requires s.fruits[i].bonusType == Some(OneClickFruit) && !s.bonus.oneClickActive
    ensures var started := SmashFruit(s, s.fruits[i].id);
            var expired := ExpireOneClickModifier(started);
            var others := RemoveAt(s.fruits, i);
            started.bonus.oneClickActive
            && |expired.fruits| == |others|
            && (forall j :: 0 <= j < |others| ==> started.fruits[j].clicksRequired == 1)
            && (forall j :: 0 <= j < |others| ==>
                  expired.fruits[j].id == others[j].id
                  && expired.fruits[j].clicksRequired == others[j].originalClicksRequired)
            && !expired.bonus.oneClickActive
  {
    assert s.fruits[i].isSpecial;
    SmashDestroyingHitStartsBonus(s, i);
  }

  /** A fruit spawned while the one-click bonus runs starts with one click, and
      on expiry gets back the click count that was drawn for it. */
  lemma OneClickSpawnRevertsToDrawnClicks(s: GameState, d: SpawnDraws)
    requires ValidDraws(d) && s.bonus.oneClickActive
    ensures var spawned := SpawnFruit(s, d);
            var f := spawned.fruits[|s.fruits|];
            var expired := ExpireOneClickModifier(spawned);
            f.clicksRequired == 1
            && expired.fruits[|s.fruits|].clicksRequired
                 == CalculateFruitClicksRequired(f.kind, d.clicks)
            && ClicksRange(f.kind).min <= expired.fruits[|s.fruits|].clicksRequired <= ClicksRange(f.kind).max
  {
  }

  /** The slow-down bonus from start to expiry: every other live fruit falls at
      0.8 of its original speed, and after expiry at exactly its original speed. */
  lemma SlowDownBonusRestoresOwnOriginals(s: GameState, i: nat)
    requires Valid(s) && i < |s.fruits| && s.fruits[i].clicksRequired == 1
    requires s.fruits[i].bonusType == Some(ReduceFallSpeed) && !s.bonus.reduceFallSpeedActive
    ensures var started := SmashFruit(s, s.fruits[i].id);
            var expired := ExpireFallSpeedModifier(started);
            var others := RemoveAt(s.fruits, i);
            started.bonus.reduceFallSpeedActive
            && |expired.fruits| == |others|
            && (forall j :: 0 <= j < |others| ==>
                  started.fruits[j].fallSpeed == others[j].originalFallSpeed * BonusSlowFactor
                  && expired.fruits[j].fallSpeed == others[j].originalFallSpeed)
            && !expired.bonus.reduceFallSpeedActive
  {
    assert s.fruits[i].isSpecial;
    SmashDestroyingHitStartsBonus(s, i);
    var others := RemoveAt(s.fruits, i);
    forall j | 0 <= j < |others| ensures others[j].fallSpeed == others[j].originalFallSpeed {
      var j' := if j < i then j else j + 1;
      assert others[j] == s.fruits[j'];
    }
  }

  // ---------------------------------------------------------------- ticks

  /** One tick raises the level by at most one, counts every dropped fruit as
      missed, and ends the game (dropping the timer) once five are missed; the
      timer then no longer changes anything. */
  lemma TickStepsAndGameOver(s: GameState, now: int, d: SpawnDraws, later: int, d2: SpawnDraws)
    requires ValidDraws(d) && ValidDraws(d2)
    ensures var r := UpdateGame(s, now, d);
            var spawned := SpawnIfDue(s, now, d);
            r.difficultyLevel - s.difficultyLevel in {0, 1}
            && r.missedFruits == s.missedFruits + (|spawned.fruits| - |r.fruits|)
            && (r.missedFruits >= MaxMissedFruits ==> r.isGameOver && IntervalTick(r, later, d2) == r)
  {
  }

  // ---------------------------------------------------------------- driver traces

  /** What can happen to the engine from outside: a restart, the game timer
      firing, a player's hit, a bonus timeout firing, or an explicit end. */
  datatype Event =
    | Start
    | Tick(now: int, draws: SpawnDraws)
    | Hit(id: nat)
    | SlowDownExpires
    | OneClickExpires
    | End

  /** The draws of a timer firing are genuine and the new identifier is fresh. */
  predicate Admissible(s: GameState, e: Event) {
    e.Tick? ==> ValidDraws(e.draws) && e.draws.id !in Ids(s.fruits)
  }

  /** The engine's reaction to one event. */
  function Step(s: GameState, e: Event): (r: GameState)
    requires Admissible(s, e)
    ensures e.Start? ==> r.gameIntervalArmed && r.score == 0 && r.fruits == []
    ensures e.Hit? ==> r == SmashFruit(s, e.id)
    ensures e.Tick? && !s.gameIntervalArmed ==> r == s
  {
    match e
    case Start => StartGame(s)
    case Tick(now, d) => IntervalTick(s, now, d)
    case Hit(id) => SmashFruit(s, id)
    case SlowDownExpires => ExpireFallSpeedModifier(s)
    case OneClickExpires => ExpireOneClickModifier(s)
    case End => EndGame(s)
  }

  /** Every event of the trace is admissible in the state it meets. */
  predicate AdmissibleTrace(s: GameState, evs: seq<Event>)
    decreases |evs|
  {
    |evs| == 0 || (Admissible(s, evs[0]) && AdmissibleTrace(Step(s, evs[0]), evs[1..]))
  }

  /** The state after a whole trace. */
  function Run(s: GameState, evs: seq<Event>): (r: GameState)
    requires AdmissibleTrace(s, evs)
    decreases |evs|
  {
    if |evs| == 0 then s else Run(Step(s, evs[0]), evs[1..])
  }

  /** One event keeps the invariant. */
  lemma StepKeepsValid(s: GameState, e: Event)
    requires Valid(s) && Admissible(s, e)
    ensures Valid(Step(s, e))
  {
    match e
    case Start => LifecycleKeepsValid(s);
    case End => LifecycleKeepsValid(s);
    case Tick(now, d) =>
      if s.gameIntervalArmed {
        UpdateGameKeepsValid(s, now, d);
      }
    case Hit(id) => SmashFruitKeepsValid(s, id);
    case SlowDownExpires => ExpiriesKeepValid(s);
    case OneClickExpires => ExpiriesKeepValid(s);
  }

  /** Any admissible trace from a valid state ends in a valid state. */
  lemma {:induction false} RunKeepsValid(s: GameState, evs: seq<Event>)
    requires Valid(s) && AdmissibleTrace(s, evs)
    ensures Valid(Run(s, evs))
    decreases |evs|
  {
    if |evs| != 0 {
      StepKeepsValid(s, evs[0]);
      RunKeepsValid(Step(s, evs[0]), evs[1..]);
    }
  }

  /** An event other than a restart never lowers score, missed count or level. */
  lemma StepCountersNeverDecrease(s: GameState, e: Event)
    requires Valid(s) && Admissible(s, e) && !e.Start?
    ensures Step(s, e).score >= s.score
    ensures Step(s, e).missedFruits >= s.missedFruits
    ensures Step(s, e).difficultyLevel >= s.difficultyLevel
  {
    match e
    case Hit(id) => SmashNeverLowersScore(s, id);
    case Tick(now, d) =>
      if s.gameIntervalArmed {
        var spawned := SpawnIfDue(s, now, d);
        assert spawned.missedFruits == s.missedFruits && spawned.difficultyLevel == s.difficultyLevel;
        assert MoveFruitsDown(spawned).missedFruits >= spawned.missedFruits;
      }
    case _ =>
  }

  /** Without a restart, score, missed count and level never go down. */
  lemma {:induction false} CountersNeverDecrease(s: GameState, evs: seq<Event>)
    requires Valid(s) && AdmissibleTrace(s, evs)
    requires forall k :: 0 <= k < |evs| ==> !evs[k].Start?
    ensures Run(s, evs).score >= s.score
    ensures Run(s, evs).missedFruits >= s.missedFruits
    ensures Run(s, evs).difficultyLevel >= s.difficultyLevel
    decreases |evs|
  {
    if |evs| != 0 {
      var e := evs[0];
      StepKeepsValid(s, e);
      StepCountersNeverDecrease(s, e);
      assert forall k :: 0 <= k < |evs[1..]| ==> !evs[1..][k].Start? by {
        forall k | 0 <= k < |evs[1..]| ensures !evs[1..][k].Start? {
          assert evs[1..][k] == evs[k + 1];
        }
      }
      CountersNeverDecrease(Step(s, e), evs[1..]);
    }
  }

  /** Once over, the game stays over: a restart does not clear the flag. */
  lemma {:induction false} GameOverIsPermanent(s: GameState, evs: seq<Event>)
    requires s.isGameOver && AdmissibleTrace(s, evs)
    ensures Run(s, evs).isGameOver
    decreases |evs|
  {
    if |evs| != 0 {
      assert Step(s, evs[0]).isGameOver;
      GameOverIsPermanent(Step(s, evs[0]), evs[1..]);
    }
  }

  /** After the game ended, timer firings alone leave the state untouched, so
      no fruit is spawned, moved or missed. */
  lemma {:induction false} TicksAfterEndDoNothing(s: GameState, evs: seq<Event>)
    requires !s.gameIntervalArmed && AdmissibleTrace(s, evs)
    requires forall k :: 0 <= k < |evs| ==> evs[k].Tick?
    ensures Run(s, evs) == s
    decreases |evs|
  {
    if |evs| != 0 {
      assert forall k :: 0 <= k < |evs[1..]| ==> evs[1..][k].Tick? by {
        forall k | 0 <= k < |evs[1..]| ensures evs[1..][k].Tick? {
          assert evs[1..][k] == evs[k + 1];
        }
      }
      TicksAfterEndDoNothing(Step(s, evs[0]), evs[1..]);
    }
  }
}

=== FILE: game_service.dfy ===
/** The game-state engine: the session record, spawning with difficulty-gated
    categories, one tick of the game loop, hits, timed bonuses and the end of the
    game. Every operation is a pure function from the old state to the new one.
    Observable stores become plain fields, the repeating game timer becomes the
    flag `gameIntervalArmed`, and each deferred bonus reversion is its own
    transition (`ExpireFallSpeedModifier`, `ExpireOneClickModifier`). */
module Service {
  import opened Base
  import opened Fruits

  /** A fruit whose `y` exceeds this height has left the board and is missed. */
  const GameBoardHeight: real := 800.0
  /** The game ends once this many fruits have been missed. */
  const MaxMissedFruits: int := 5
  /** Points needed since the last difficulty increase to raise the level. */
  const LevelScoreStep: int := 500
  /** Each level multiplies the spawn interval by this factor. */
  const SpawnRateDecay: real := 0.95
  /** Spawn interval, in milliseconds, set when a game is (re)initialised. */
  const InitialSpawnRate: real := 1200.0
  /** Spawn interval set by the field initialiser, overwritten by the constructor. */
  const DefaultSpawnRate: real := 500.0
  /** Fall-speed factor applied to live fruits when the slow-down bonus starts. */
  const BonusSlowFactor: real := 0.8
  /** Fall-speed factor applied to fruits spawned while the slow-down is active. */
  const SpawnSlowFactor: real := 0.7
  /** Chance that a spawned fruit is special. */
  const SpecialChance: real := 0.1

  /** Which timed effects are running. */
  datatype BonusState = BonusState(reduceFallSpeedActive: bool, oneClickActive: bool)

  /** The session. `gameIntervalArmed` says whether the repeating timer that
      drives `UpdateGame` is installed. */
  datatype GameState = GameState(
    fruits: seq<Fruit>,
    gameIntervalArmed: bool,
    isGameOver: bool,
    lastDifficultyIncreaseScore: int,
    score: int,
    nextSpawnTime: real,
    missedFruits: int,
    difficultyLevel: int,
    spawnRate: real,
    bonus: BonusState)

  /** The random draws one spawn consumes, in source order, and the identifier of
      the new fruit. Every draw stands for one `Math.random()` call. */
  datatype SpawnDraws = SpawnDraws(
    id: nat, kind: real, clicks: real, points: real,
    size: real, ctorX: real, x: real, special: real, bonus: real)

  /** Every draw lies in `[0, 1)`. */
  predicate ValidDraws(d: SpawnDraws) {
    0.0 <= d.kind < 1.0 && 0.0 <= d.clicks < 1.0 && 0.0 <= d.points < 1.0
    && 0.0 <= d.size < 1.0 && 0.0 <= d.ctorX < 1.0 && 0.0 <= d.x < 1.0
    && 0.0 <= d.special < 1.0 && 0.0 <= d.bonus < 1.0
  }

  /** Bounds of the drawn number of clicks per category; both `min` and `max`
      can be drawn. */
  function ClicksRange(kind: FruitType): Range {
    match kind
    case Small => Range(1, 2)
    case Medium => Range(3, 4)
    case Large => Range(5, 6)
  }

  /** Bounds of the drawn points per category; both `min` and `max` can be
      drawn. */
  function PointsRange(kind: FruitType): Range {
    match kind
    case Small => Range(10, 20)
    case Medium => Range(30, 50)
    case Large => Range(60, 150)
  }

  /** Categories a level unlocks: small always, medium from level 3, large from level 5. */
  predicate Unlocked(level: int, kind: FruitType) {
    match kind
    case Small => true
    case Medium => level >= 3
    case Large => level >= 5
  }

  /** The identifiers of a fruit list, in order. */
  function Ids(fs: seq<Fruit>): (ids: seq<nat>)
    ensures |ids| == |fs|
    ensures forall i :: 0 <= i < |fs| ==> ids[i] == fs[i].id
  {
    seq(|fs|, i requires 0 <= i < |fs| => fs[i].id)
  }

  // ---------------------------------------------------------------- lifecycle

  /** The state right after construction: field initialisers, then `initGame`. */
  function NewGameService(): (s: GameState)
    ensures s.fruits == [] && s.score == 0 && s.missedFruits == 0
    ensures s.difficultyLevel == 1 && s.spawnRate == InitialSpawnRate
    ensures !s.isGameOver && !s.gameIntervalArmed
    ensures s.bonus == BonusState(false, false)
    ensures s.lastDifficultyIncreaseScore == 0 && s.nextSpawnTime == 0.0
  {
    var fields := GameState([], false, false, 0, 0, 0.0, 0, 1, DefaultSpawnRate, BonusState(false, false));
    InitGame(fields)
  }

  /** Resets the fruits, counters, level, spawn interval and spawn deadline.
      The game-over flag, the last difficulty-increase score, the bonus flags
      and the timer are left as they were. */
  function InitGame(s: GameState): (r: GameState)
    ensures r.fruits == [] && r.score == 0 && r.missedFruits == 0
    ensures r.difficultyLevel == 1 && r.spawnRate == InitialSpawnRate && r.nextSpawnTime == 0.0
    ensures r.isGameOver == s.isGameOver && r.bonus == s.bonus
    ensures r.lastDifficultyIncreaseScore == s.lastDifficultyIncreaseScore
    ensures r.gameIntervalArmed == s.gameIntervalArmed
  {
    s.(fruits := [], missedFruits := 0, difficultyLevel := 1, spawnRate := InitialSpawnRate,
       nextSpawnTime := 0.0, score := 0)
  }

  /** Reinitialises and installs the repeating game timer. */
  function StartGame(s: GameState): (r: GameState)
    ensures r.gameIntervalArmed
    ensures r.(gameIntervalArmed := s.gameIntervalArmed) == InitGame(s)
  {
    InitGame(s).(gameIntervalArmed := true)
  }

  /** Sets the game-over flag and drops the timer; nothing else changes. */
  function EndGame(s: GameState): (r: GameState)
    ensures r.isGameOver && !r.gameIntervalArmed
    ensures r.(isGameOver := s.isGameOver, gameIntervalArmed := s.gameIntervalArmed) == s
  {
    s.(isGameOver := true, gameIntervalArmed := false)
  }

  /** Adds points to the score and touches nothing else. */
  function AddScore(s: GameState, points: int): (r: GameState)
    ensures r.score - s.score == points
    ensures r.(score := s.score) == s
  {
    s.(score := s.score + points)
  }

  // ---------------------------------------------------------------- spawning

  /** Picks a category uniformly among those the level unlocks. */
  function CalculateFruitType(level: int, r: real): (kind: FruitType)
    requires 0.0 <= r < 1.0
    ensures Unlocked(level, kind)
  {
    var types := [Small] + (if level >= 3 then [Medium] else []) + (if level >= 5 then [Large] else []);
    types[FloorDraw(r, |types|, 0)]
  }

  /** Draws the number of hits needed, inclusively within the category's range. */
  function CalculateFruitClicksRequired(kind: FruitType, r: real): (clicks: int)
    requires 0.0 <= r < 1.0
    ensures ClicksRange(kind).min <= clicks <= ClicksRange(kind).max
  {
    var range := ClicksRange(kind);
    FloorDraw(r, range.max - range.min + 1, range.min)
  }

  /** Draws the points awarded, inclusively within the category's range. */
  function CalculateFruitPoints(kind: FruitType, r: real): (points: int)
    requires 0.0 <= r < 1.0
    ensures PointsRange(kind).min <= points <= PointsRange(kind).max
  {
    var range := PointsRange(kind);
    FloorDraw(r, range.max - range.min + 1, range.min)
  }

  /** With probability `SpecialChance` (draw `rSpecial`) marks the fruit special
      and gives it one of the two bonuses (draw `rBonus`, uniform). */
  function CheckIfSpecial(f: Fruit, rSpecial: real, rBonus: real): (g: Fruit)
    requires 0.0 <= rSpecial < 1.0 && 0.0 <= rBonus < 1.0
    ensures rSpecial < SpecialChance ==> g.isSpecial && g.bonusType.Some?
    ensures rSpecial < SpecialChance ==>
              g.bonusType == Some(if rBonus < 0.5 then ReduceFallSpeed else OneClickFruit)
    ensures rSpecial >= SpecialChance ==> g == f
    ensures g.(isSpecial := f.isSpecial, bonusType := f.bonusType) == f
  {
    if rSpecial < SpecialChance then
      var bonuses := [ReduceFallSpeed, OneClickFruit];
      f.(isSpecial := true, bonusType := Some(bonuses[FloorDraw(rBonus, |bonuses|, 0)]))
    else
      f
  }

  /** The fruit `SpawnFruit` builds, before it is appended. */
  function SpawnedFruit(s: GameState, d: SpawnDraws): (f: Fruit)
    requires ValidDraws(d)
    ensures f.id == d.id && Unlocked(s.difficultyLevel, f.kind) && f.isFalling
    ensures f.kind == CalculateFruitType(s.difficultyLevel, d.kind)
    ensures f.points == CalculateFruitPoints(f.kind, d.points)
    ensures f.size == CalculateSize(f.kind, d.size)
    ensures f.x == RandomXPosition(f.size, d.x)
    ensures f.isSpecial ==> f.bonusType == Some(if d.bonus < 0.5 then ReduceFallSpeed else OneClickFruit)
    ensures ClicksRange(f.kind).min <= f.originalClicksRequired <= ClicksRange(f.kind).max
    ensures f.originalClicksRequired == CalculateFruitClicksRequired(f.kind, d.clicks)
    ensures PointsRange(f.kind).min <= f.points <= PointsRange(f.kind).max
    ensures SizeRange(f.kind).min <= f.size < SizeRange(f.kind).max
    ensures f.originalFallSpeed == CalculateFallSpeed(f.size)
    ensures 0 <= f.x && f.x + f.size < GameBoardWidth
    ensures f.y == -(f.size as real)
    ensures f.isSpecial <==> d.special < SpecialChance
    ensures f.isSpecial <==> f.bonusType.Some?
    ensures f.clicksRequired == if s.bonus.oneClickActive then 1 else f.originalClicksRequired
    ensures f.fallSpeed == if s.bonus.reduceFallSpeedActive then f.originalFallSpeed * SpawnSlowFactor
                           else f.originalFallSpeed
  {
    var kind := CalculateFruitType(s.difficultyLevel, d.kind);
    var clicks := CalculateFruitClicksRequired(kind, d.clicks);
    var points := CalculateFruitPoints(kind, d.points);
    var built := NewFruit(d.id, kind, points, clicks, false, None, d.size, d.ctorX);
    var placed := built.(y := -(built.size as real), x := RandomXPosition(built.size, d.x));
    var marked := CheckIfSpecial(placed, d.special, d.bonus);
    var slowed := if s.bonus.reduceFallSpeedActive then ApplyFallSpeedModifier(marked, SpawnSlowFactor) else marked;
    if s.bonus.oneClickActive then ApplyOneClickModifier(slowed) else slowed
  }

  /** Appends one newly drawn fruit; no other part of the state changes. */
  function SpawnFruit(s: GameState, d: SpawnDraws): (r: GameState)
    requires ValidDraws(d)
    ensures |r.fruits| == |s.fruits| + 1
    ensures r.fruits[..|s.fruits|] == s.fruits
    ensures r.fruits[|s.fruits|] == SpawnedFruit(s, d)
    ensures r.(fruits := s.fruits) == s
  {
    s.(fruits := s.fruits + [SpawnedFruit(s, d)])
  }

  // ---------------------------------------------------------------- difficulty

  /** Raises the level by one, shortens the spawn interval and records the score
      exactly when the score has grown by `LevelScoreStep` since the last raise. */
  function IncreaseLevel(s: GameState): (r: GameState)
    ensures s.score >= s.lastDifficultyIncreaseScore + LevelScoreStep ==>
              r.difficultyLevel == s.difficultyLevel + 1
              && r.spawnRate == s.spawnRate * SpawnRateDecay
              && r.lastDifficultyIncreaseScore == s.score
    ensures s.score < s.lastDifficultyIncreaseScore + LevelScoreStep ==> r == s
    ensures r.(difficultyLevel := s.difficultyLevel, spawnRate := s.spawnRate,
               lastDifficultyIncreaseScore := s.lastDifficultyIncreaseScore) == s
  {
    if s.score >= s.lastDifficultyIncreaseScore + LevelScoreStep then
      s.(difficultyLevel := s.difficultyLevel + 1, spawnRate := s.spawnRate * SpawnRateDecay,
         lastDifficultyIncreaseScore := s.score)
    else
      s
  }

  // ---------------------------------------------------------------- falling and misses

  /** A fruit below the bottom edge of the board. */
  predicate PastBottom(f: Fruit) {
    f.y > GameBoardHeight
  }

  /** Every fruit after one fall step, position by position. */
  function FallAll(fs: seq<Fruit>): (gs: seq<Fruit>)
    ensures |gs| == |fs|
    ensures forall i :: 0 <= i < |fs| ==> gs[i] == Fall(fs[i])
  {
    seq(|fs|, i requires 0 <= i < |fs| => Fall(fs[i]))
  }

  /** The filter pass of `moveFruitsDown`: makes each fruit fall, keeps those
      still on the board and counts the others. The kept fruits are exactly the
      fallen fruits that are not past the bottom, in their original order, and
      the count is the number dropped. Copies are counted: each fallen fruit
      on the board is kept as often as it occurs. */
  function FallAndFilter(fs: seq<Fruit>): (r: (seq<Fruit>, nat))
    ensures r.1 == |fs| - |r.0|
    ensures FilteredFrom(r.0, FallAll(fs))
  {
    if |fs| == 0 then ([], 0)
    else
      var g := Fall(fs[0]);
      var rest := FallAndFilter(fs[1..]);
      FilterStep(fs, rest.0);
      if PastBottom(g) then (rest.0, rest.1 + 1) else ([g] + rest.0, rest.1)
  }

  /** `kept` holds every fruit of `all` that is on the board, as often as `all`
      does, and nothing else. */
  ghost predicate KeepsOnBoard(kept: seq<Fruit>, all: seq<Fruit>) {
    forall h :: multiset(kept)[h] == if PastBottom(h) then 0 else multiset(all)[h]
  }

  /** `kept` is `all` with exactly the fruits past the bottom removed: same
      members on the board, same number of copies, same relative order. */
  ghost predicate FilteredFrom(kept: seq<Fruit>, all: seq<Fruit>) {
    (forall h :: h in kept <==> h in all && !PastBottom(h))
    && KeepsOnBoard(kept, all)
    && SubseqOf(kept, all)
  }

  /** One step of the filter: the fallen list of `fs` is its first fallen fruit
      in front of the fallen tail, so `ConsFilter` applies. */
  lemma FilterStep(fs: seq<Fruit>, kept: seq<Fruit>)
    requires |fs| > 0
    requires FilteredFrom(kept, FallAll(fs[1..]))
    ensures var g := Fall(fs[0]);
            FilteredFrom(if PastBottom(g) then kept else [g] + kept, FallAll(fs))
  {
    assert FallAll(fs) == [Fall(fs[0])] + FallAll(fs[1..]);
    ConsFilter(Fall(fs[0]), FallAll(fs[1..]), kept);
  }

  /** Filtering `[g] + tail` keeps `g` in front of the filtered tail exactly
      when `g` is on the board. */
  lemma ConsFilter(g: Fruit, tail: seq<Fruit>, kept: seq<Fruit>)
    requires FilteredFrom(kept, tail)
    ensures FilteredFrom(if PastBottom(g) then kept else [g] + kept, [g] + tail)
  {
    var out := if PastBottom(g) then kept else [g] + kept;
    ConsCounts(g, tail, kept);
    MembersFromCounts(out, [g] + tail);
    assert ([g] + tail)[1..] == tail;
    if !PastBottom(g) {
      assert out[1..] == kept;
    }
  }

  /** The copy count of the filter grows by one for `g` exactly when `g` is on
      the board. */
  lemma ConsCounts(g: Fruit, tail: seq<Fruit>, kept: seq<Fruit>)
    requires KeepsOnBoard(kept, tail)
    ensures KeepsOnBoard(if PastBottom(g) then kept else [g] + kept, [g] + tail)
  {
    assert multiset([g] + tail) == multiset{g} + multiset(tail);
    assert multiset([g] + kept) == multiset{g} + multiset(kept);
  }

  /** Equal copy counts give equal membership. */
  lemma MembersFromCounts(kept: seq<Fruit>, all: seq<Fruit>)
    requires KeepsOnBoard(kept, all)
    ensures forall h :: h in kept <==> h in all && !PastBottom(h)
  {
    forall h ensures h in kept <==> h in all && !PastBottom(h) {
      assert h in kept <==> multiset(kept)[h] > 0;
      assert h in all <==> multiset(all)[h] > 0;
    }
  }

  /** Moves every fruit down, removes those that left the board and adds their
      number to the missed count. */
  function MoveFruitsDown(s: GameState): (r: GameState)
    ensures r.missedFruits == s.missedFruits + (|s.fruits| - |r.fruits|)
    ensures forall g :: g in r.fruits <==> g in FallAll(s.fruits) && !PastBottom(g)
    ensures KeepsOnBoard(r.fruits, FallAll(s.fruits))
    ensures SubseqOf(r.fruits, FallAll(s.fruits))
    ensures r.(fruits := s.fruits, missedFruits := s.missedFruits) == s
  {
    var kept := FallAndFilter(s.fruits);
    s.(fruits := kept.0, missedFruits := s.missedFruits + kept.1)
  }

  /** Ends the game once `MaxMissedFruits` fruits have been missed. */
  function CheckForMissedFruits(s: GameState): (r: GameState)
    ensures s.missedFruits >= MaxMissedFruits ==> r == EndGame(s)
    ensures s.missedFruits < MaxMissedFruits ==> r == s
  {
    if s.missedFruits >= MaxMissedFruits then EndGame(s) else s
  }

  // ---------------------------------------------------------------- the game loop

  /** First step of a tick: spawn if the deadline has been reached, and set the
      next deadline one spawn interval after `now`. */
  function SpawnIfDue(s: GameState, now: int, d: SpawnDraws): (r: GameState)
    requires ValidDraws(d)
    ensures now as real >= s.nextSpawnTime ==>
              r == SpawnFruit(s, d).(nextSpawnTime := now as real + s.spawnRate)
    ensures now as real < s.nextSpawnTime ==> r == s
  {
    if now as real >= s.nextSpawnTime then
      SpawnFruit(s, d).(nextSpawnTime := now as real + s.spawnRate)
    else
      s
  }

  /** One tick at time `now`: spawn, fall, miss removal, game-over check,
      difficulty step, in that order. */
  function UpdateGame(s: GameState, now: int, d: SpawnDraws): (r: GameState)
    requires ValidDraws(d)
    ensures r == IncreaseLevel(CheckForMissedFruits(MoveFruitsDown(SpawnIfDue(s, now, d))))
    ensures r.missedFruits >= MaxMissedFruits ==> r.isGameOver && !r.gameIntervalArmed
    ensures r.score == s.score && r.bonus == s.bonus
  {
    var spawned := SpawnIfDue(s, now, d);
    var moved := MoveFruitsDown(spawned);
    var checked := CheckForMissedFruits(moved);
    IncreaseLevel(checked)
  }

  /** The repeating game timer firing at time `now`: a tick while it is
      installed, nothing once `EndGame` has cleared it. */
  function IntervalTick(s: GameState, now: int, d: SpawnDraws): (r: GameState)
    requires ValidDraws(d)
    ensures !s.gameIntervalArmed ==> r == s
    ensures s.gameIntervalArmed ==> r == UpdateGame(s, now, d)
  {
    if s.gameIntervalArmed then UpdateGame(s, now, d) else s
  }

  // ---------------------------------------------------------------- bonuses

  /** Scales the fall speed of every live fruit. */
  function FallSpeedModifier(s: GameState, modifier: real): (r: GameState)
    ensures |r.fruits| == |s.fruits|
    ensures forall i :: 0 <= i < |s.fruits| ==>
              SameIdentity(s.fruits[i], r.fruits[i]) && r.fruits[i].y == s.fruits[i].y
              && r.fruits[i].clicksRequired == s.fruits[i].clicksRequired
              && r.fruits[i].fallSpeed == s.fruits[i].fallSpeed * modifier
    ensures r.(fruits := s.fruits) == s
  {
    s.(fruits := seq(|s.fruits|, i requires 0 <= i < |s.fruits| => ApplyFallSpeedModifier(s.fruits[i], modifier)))
  }

  /** The deferred end of the slow-down: every fruit live at that moment gets
      back its own original fall speed, and the flag is cleared. */
  function ExpireFallSpeedModifier(s: GameState): (r: GameState)
    ensures |r.fruits| == |s.fruits|
    ensures forall i :: 0 <= i < |s.fruits| ==>
              SameIdentity(s.fruits[i], r.fruits[i]) && r.fruits[i].y == s.fruits[i].y
              && r.fruits[i].clicksRequired == s.fruits[i].clicksRequired
              && r.fruits[i].fallSpeed == r.fruits[i].originalFallSpeed
    ensures !r.bonus.reduceFallSpeedActive
    ensures r.(fruits := s.fruits, bonus := s.bonus) == s
    ensures r.bonus.oneClickActive == s.bonus.oneClickActive
  {
    s.(fruits := seq(|s.fruits|, i requires 0 <= i < |s.fruits| => RevertToOriginalFallSpeed(s.fruits[i])),
       bonus := s.bonus.(reduceFallSpeedActive := false))
  }

  /** Makes every live fruit destructible by one hit. */
  function OneClickModifier(s: GameState): (r: GameState)
    ensures |r.fruits| == |s.fruits|
    ensures forall i :: 0 <= i < |s.fruits| ==>
              SameIdentity(s.fruits[i], r.fruits[i]) && r.fruits[i].y == s.fruits[i].y
              && r.fruits[i].fallSpeed == s.fruits[i].fallSpeed
              && r.fruits[i].clicksRequired == 1
    ensures r.(fruits := s.fruits) == s
  {
    s.(fruits := seq(|s.fruits|, i requires 0 <= i < |s.fruits| => ApplyOneClickModifier(s.fruits[i])))
  }

  /** The deferred end of the one-click bonus: every fruit live at that moment
      gets back its own original click count, and the flag is cleared. */
  function ExpireOneClickModifier(s: GameState): (r: GameState)
    ensures |r.fruits| == |s.fruits|
    ensures forall i :: 0 <= i < |s.fruits| ==>
              SameIdentity(s.fruits[i], r.fruits[i]) && r.fruits[i].y == s.fruits[i].y
              && r.fruits[i].fallSpeed == s.fruits[i].fallSpeed
              && r.fruits[i].clicksRequired == r.fruits[i].originalClicksRequired
    ensures !r.bonus.oneClickActive
    ensures r.(fruits := s.fruits, bonus := s.bonus) == s
    ensures r.bonus.reduceFallSpeedActive == s.bonus.reduceFallSpeedActive
  {
    s.(fruits := seq(|s.fruits|, i requires 0 <= i < |s.fruits| => RevertToOriginalClicksRequired(s.fruits[i])),
       bonus := s.bonus.(oneClickActive := false))
  }

  /** Starts the bonus a destroyed special fruit carries, unless that kind of
      bonus is already running, in which case nothing happens. */
  function ActivateBonus(s: GameState, f: Fruit): (r: GameState)
    ensures r.score == s.score && r.missedFruits == s.missedFruits && |r.fruits| == |s.fruits|
    ensures forall j :: 0 <= j < |s.fruits| ==> SameIdentity(s.fruits[j], r.fruits[j])
    ensures !(f.isSpecial && f.bonusType.Some?) ==> r == s
    ensures f.isSpecial && f.bonusType == Some(ReduceFallSpeed) ==>
              r.bonus.reduceFallSpeedActive
              && r.bonus.oneClickActive == s.bonus.oneClickActive
              && (s.bonus.reduceFallSpeedActive ==> r == s)
              && (!s.bonus.reduceFallSpeedActive ==>
                    r == FallSpeedModifier(s, BonusSlowFactor).(bonus := r.bonus))
    ensures f.isSpecial && f.bonusType == Some(OneClickFruit) ==>
              r.bonus.oneClickActive
              && r.bonus.reduceFallSpeedActive == s.bonus.reduceFallSpeedActive
              && (s.bonus.oneClickActive ==> r == s)
              && (!s.bonus.oneClickActive ==> r == OneClickModifier(s).(bonus := r.bonus))
  {
    if f.isSpecial && f.bonusType.Some? then
      match f.bonusType.value
      case ReduceFallSpeed =>
        if !s.bonus.reduceFallSpeedActive then
          FallSpeedModifier(s, BonusSlowFactor).(bonus := s.bonus.(reduceFallSpeedActive := true))
        else s
      case OneClickFruit =>
        if !s.bonus.oneClickActive then
          OneClickModifier(s).(bonus := s.bonus.(oneClickActive := true))
        else s
    else s
  }

  // ---------------------------------------------------------------- hits

  /** Position of the first fruit with the given identifier, if any. */
  function FindIndex(fs: seq<Fruit>, id: nat): (r: Option<nat>)
    ensures r.None? <==> forall j :: 0 <= j < |fs| ==> fs[j].id != id
    ensures r.Some? ==> r.value < |fs| && fs[r.value].id == id
                        && forall j :: 0 <= j < r.value ==> fs[j].id != id
  {
    if |fs| == 0 then None
    else if fs[0].id == id then Some(0)
    else
      match FindIndex(fs[1..], id)
      case None => None
      case Some(k) => Some(k + 1)
  }

  /** The destroying branch of a hit on the fruit at position `i`, whose state
      after the hit is `f`: its bonus starts as `ActivateBonus` decides, its
      points are added, and exactly that position is removed from the fruits
      the bonus left. Level, flags, timer and spawn schedule are untouched. */
  function DestroyFruit(s: GameState, i: nat, f: Fruit): (r: GameState)
    requires i < |s.fruits|
    ensures r.score == s.score + f.points && r.missedFruits == s.missedFruits
    ensures Ids(r.fruits) == RemoveAt(Ids(s.fruits), i)
    ensures r.bonus == ActivateBonus(s, f).bonus
    ensures r.(fruits := s.fruits, score := s.score, bonus := s.bonus) == s
    ensures |r.fruits| == |s.fruits| - 1
    ensures forall j :: 0 <= j < |r.fruits| ==>
              r.fruits[j] == ActivateBonus(s, f).fruits[if j < i then j else j + 1]
  {
    var scored := AddScore(ActivateBonus(s, f), f.points);
    scored.(fruits := RemoveAt(scored.fruits, i))
  }

  /** One hit on the fruit with identifier `id`. An unknown identifier changes
      nothing. A hit that leaves clicks updates only that fruit. A destroying hit
      may start the fruit's bonus, adds its points and removes it. There is no
      game-over guard. */
  function SmashFruit(s: GameState, id: nat): (r: GameState)
    ensures FindIndex(s.fruits, id).None? ==> r == s
    ensures FindIndex(s.fruits, id).Some? ==>
              var i := FindIndex(s.fruits, id).value;
              var hit := Smash(s.fruits[i]);
              (!hit.destroyed ==> r == s.(fruits := s.fruits[i := hit.fruit]))
              && (hit.destroyed ==>
                    r.score == s.score + s.fruits[i].points
                    && Ids(r.fruits) == RemoveAt(Ids(s.fruits), i)
                    && r.missedFruits == s.missedFruits)
  {
    match FindIndex(s.fruits, id)
    case None => s
    case Some(i) =>
      var hit := Smash(s.fruits[i]);
      var hitState := s.(fruits := s.fruits[i := hit.fruit]);
      if hit.destroyed then
        assert Ids(hitState.fruits) == Ids(s.fruits);
        DestroyFruit(hitState, i, hit.fruit)
      else
        hitState
  }
}
